=== FILE: README.md ===
# nand2tetris-xblock: a Dafny model of its rules

The Nand2Tetris block lets students upload a project archive, grades it with an external
autograder container, records the score, and lets course staff download every student's
latest file as one zip archive built by a background task. Almost all of it is glue between
the course platform, the submissions service, blob storage, the autograder and a task queue.
This project models the small deterministic rules inside that glue as pure Dafny functions
over explicit inputs, and proves what they guarantee:

- **Grading** (`Grading`): the fold of the autograder's test list into integer `score` /
  `max_score` sums, the ratio kept in `student_score`, the truncated `final` percentage, and
  `get_score` / `set_score` / `has_submitted_answer` with the `-1` "not submitted" default.
- **Upload size guard** (`UploadLimit`): the server's strict `>` check against a limit of
  4,000,000 bytes by default, and the browser's `>=` check against the same limit.
- **Uploading** (`Handlers.UploadAssignment`): permission, hashing, the size guard, grading,
  the two ways the handler still fails after grading, and storing the file at its
  content-addressed path.
- **Archive reuse** (`Handlers.PrepareDownloadSubmissions`): when an existing staff archive can
  be downloaded and when a rebuild is queued instead.
- **Staff table** (`Submissions`): the newest-first stable sort of submissions and
  `is_finalized_submission`.
- **Paths and names** (`StorageLayout`, `ZipTasks`, `PathText`): the upload path
  `org/course/block_type/block_id/<hash><ext>`, the archive directory, name and path, and
  the name of each student's file inside the archive.
- **The archive task** (`ZipTasks`): the filter on truthy answers, the deletion of an old
  archive, the early exit with nothing to archive, and one entry per kept submission.
- **Chunked reading** (`ChunkedRead`): 8192-byte reads until an empty read, as used to stream
  files and to feed SHA-1.
- **Polling** (`Polling`): the browser's bounded retry loop that waits for the archive.

Services are parameters: storage is a `map` from path to stored blob with its modification
time, the autograder's run (its report, and whether its output is UTF-8 text), the clock and
the settings value are inputs, and MD5, SHA-1 and
the anonymous-id-to-username lookup are functions passed in. Times are integers. Python
floats are modelled as exact reals. The small library functions the code relies on
(`str.split(...)[-1]`, `posixpath.basename`, `posixpath.splitext`, `posixpath.join`) are
written out in `PathText` with CPython's behaviour.

Observations the proofs make explicit:

- An autograder entry whose `score` converts but whose `max_score` does not still has its score
  added before the loop stops (`Grading.PartialSumsWhenMaximumMalformed`).
- In the grading functions, a ratio of exactly -1 (one test scoring -1 out of 1) reads as
  "not submitted" (`Grading.NegativeReportReadsAsUnsubmitted`). The upload handler does not
  complete with such a ratio: `emit_completion` of the platform's completion mixin refuses any value
  outside [0, 1]. So a fully read report with a positive total maximum whose total score is
  negative or exceeds that total makes the upload fail after grading and before anything is
  stored (`Handlers.UploadFailsOnRatioOutsideUnitInterval`). A report cut short by a malformed
  entry, or one whose total maximum is not positive, leaves the ratio at 0 and is accepted.
- Autograder output that is not UTF-8 stays bytes, and `json.dumps` then fails while
  building the answer, so that upload fails too.
- The browser refuses a file of exactly `max_file_size` bytes that the server would accept.
- An answer of `{}` counts as finalized for `is_finalized_submission` but is skipped by the
  archive task, which tests truthiness rather than `None`.
- A staff user name beginning with `/` makes `os.path.join` drop the archive directory.

## Model

| member | source | states |
|---|---|---|
| Grading.Trunc | nand2tetris/nand2tetris.py:191 | `int()` of a float truncates toward zero: the result is within 1 of the input, on the side of zero |
| Grading.Accumulate | nand2tetris/nand2tetris.py:174-178 | the loop ends at the first entry `int()` rejects; `max_score` is the sum of the maxima before it, `score` the sum of the scores before it plus that entry's score when only its maximum is malformed; it completes exactly when every entry converts |
| Grading.Aggregate | nand2tetris/nand2tetris.py:171-182 | an unreadable report gives sums 0 and ratio 0.0; a fully read report gives the sums over all tests; a report cut short at its first malformed entry keeps the maxima before it and the scores before it plus that entry's score when it converts; the ratio is `score / max_score` exactly when the whole report was read and `max_score > 0`, and 0.0 otherwise |
| Grading.PartialSumsWhenMaximumMalformed | nand2tetris/nand2tetris.py:176-178 | a concrete report where the partial sums are 3 and 3 yet the ratio stays 0.0 |
| Grading.GradeWithinBounds | nand2tetris/nand2tetris.py:179-191 | when every test scores between 0 and its maximum, the ratio is in [0, 1] and `final` in [0, 100], with 100 for a perfect report |
| Grading.FinalPercent | nand2tetris/nand2tetris.py:191 | `final` is the ratio times 100 truncated toward zero: within 1 below it for a non-negative ratio, within 1 above it for a negative one |
| Grading.HasSubmittedAnswer | nand2tetris/nand2tetris.py:400-401 | any non-negative ratio counts as submitted, and a block not submitted reports the score 0 out of 1 |
| Grading.GetScore | nand2tetris/nand2tetris.py:406-407 | the reported score is out of 1.0, never negative, and equals the ratio unless the ratio is negative, in which case it is 0 |
| Grading.SetScore | nand2tetris/nand2tetris.py:409-410 | the stored ratio times `raw_possible` is `raw_earned`; a zero `raw_possible` raises |
| Grading.ScoreRoundTrip | nand2tetris/nand2tetris.py:400-410 | writing back the reported score restores a ratio exactly when it is non-negative, and turns the -1 default into a submitted 0 |
| Grading.UploadMarksSubmitted | nand2tetris/nand2tetris.py:400-401 | after grading the block counts as submitted whenever no test score is negative |
| Grading.ScoreRecordOf | nand2tetris/nand2tetris.py:191 | the stored `score` object keeps the fold's sums, and its `final` lies in [0, 100] for a ratio in [0, 1], with 100 for a ratio of 1 |
| Grading.SingleTestRatio | nand2tetris/nand2tetris.py:174-180 | a report of one well-formed test with a positive maximum gives the plain quotient as ratio |
| Grading.NegativeReportReadsAsUnsubmitted | nand2tetris/nand2tetris.py:179-180 | one test scoring -1 of 1 gives ratio -1, which `has_submitted_answer` reads as not submitted |
| UploadLimit.StudentUploadMaxSize | nand2tetris/nand2tetris.py:541-550 | the limit is the deployment setting when present and 4,000,000 bytes otherwise |
| UploadLimit.FileSizeOverLimit | nand2tetris/nand2tetris.py:533-539 | true exactly when the whole file is strictly larger than the limit, whatever the position; the file is left at its end |
| UploadLimit.ClientRefuses | nand2tetris/static/js/nand2tetris_student.js:160-166 | the browser refuses every size the server refuses, and apart from those only the limit itself |
| UploadLimit.ClientServerDisagreement | nand2tetris/static/js/nand2tetris_student.js:160-166 | the browser's `>=` check and the server's `>` check disagree exactly on a file of the limit's size, which the browser refuses and the server accepts |
| ChunkedRead.Blocks | nand2tetris/utils.py:14 | the blocks are non-empty, at most 8192 bytes, all but the last exactly 8192, and concatenate to the data |
| ChunkedRead.ReadBlocks | nand2tetris/utils.py:61-66 | reading until the first empty read yields exactly those blocks for the bytes from the current position, and leaves the file at its end |
| ChunkedRead.GetSha1 | nand2tetris/utils.py:37-45 | the digest is that of the bytes from the current position to the end, and the file is left at position 0 |
| PathText.LastSegment | nand2tetris/nand2tetris.py:389-391 | the result holds no separator |
| PathText.LastSegmentShape | nand2tetris/nand2tetris.py:389-391 | the result is a suffix preceded by a separator, and it is the whole text exactly when the text holds no separator |
| Handlers.XBlockLoc | nand2tetris/nand2tetris.py:389-391 | the block location is an `@`-free suffix of the location, preceded by `@` unless it is the whole location, so the longest such suffix |
| Handlers.XBlockLocOfUsageKey | nand2tetris/nand2tetris.py:389-391 | for a location ending in `@<id>` with no `@` in the id, the block location is the id |
| PathText.Ext | nand2tetris/utils.py:56 | the extension holds no slash |
| PathText.ExtShape | nand2tetris/utils.py:56 | the extension is empty or one dot followed by dot-free text, and is a suffix of the path |
| PathText.ExtOfName | nand2tetris/utils.py:56 | a slash-free name whose part before its last dot is not all dots has everything from that dot as extension (`submissao.zip` and `.a.zip` give `.zip`) |
| PathText.ExtOfDotName | nand2tetris/utils.py:56 | a name starting with its only dot has no extension |
| StorageLayout.StoragePath | nand2tetris/utils.py:48-58 | an upload path starts with the block type directory `org/course/block_type` followed by a slash |
| StorageLayout.StoragePathIdentity | nand2tetris/utils.py:48-58 | for equal-length hashes two uploads share a path exactly when hash and extension agree; the rest of the file name plays no part |
| StorageLayout.BasenameOfStoragePath | nand2tetris/utils.py:48-58 | the last component of an upload path is the hash followed by the extension |
| Submissions.IsFinalizedSubmission | nand2tetris/utils.py:24-30 | a missing submission or a None answer is not finalized; an empty answer is; otherwise the `finalized` flag decides and defaults to true |
| Submissions.Insert | nand2tetris/nand2tetris.py:369-371 | inserting into a newest-first table keeps it newest first, adds exactly the new row, and the head is the new row or the old head |
| Submissions.SortNewestFirst | nand2tetris/nand2tetris.py:369-371 | the rows come out newest first and are a permutation of the input |
| Submissions.SortIsStable | nand2tetris/nand2tetris.py:369-371 | rows with equal timestamps keep their input order |
| Submissions.SortedSubmissions | nand2tetris/nand2tetris.py:343-372 | the table has one row per submission, newest first, and fails exactly when some answer is None or empty |
| Submissions.Timestamp | nand2tetris/nand2tetris.py:359 | a submission's table time is its `submitted_at` when set and its `created_at` otherwise |
| Submissions.SortedSubmissionsNewest | nand2tetris/nand2tetris.py:352-371 | the first row's timestamp (`submitted_at`, else `created_at`) is the newest of all submissions |
| ZipTasks.ZipFileDir | nand2tetris/tasks.py:112-119 | the archive directory extends the block type directory and does not end in a slash |
| ZipTasks.ZipFileName | nand2tetris/tasks.py:122-136 | the archive name starts with the staff user name and ends in `.zip` |
| ZipTasks.ZipFileNameSlash | nand2tetris/tasks.py:122-136 | the archive name holds a slash exactly when the user name, the digest or the course id does |
| ZipTasks.ZipFileNamePerBlock | nand2tetris/tasks.py:122-136 | for one staff member and course, two blocks share an archive name exactly when their block ids' MD5 digests agree |
| ZipTasks.ZipFilePath | nand2tetris/tasks.py:139-153 | the archive path ends with the archive name |
| ZipTasks.ZipFilePathShape | nand2tetris/tasks.py:139-153 | the archive path is `<dir>/<name>` exactly when the user name does not start with a slash, and is the bare name otherwise |
| ZipTasks.BasenameOfZipFilePath | nand2tetris/nand2tetris.py:292-306 | the attachment name of the download is the final component of the archive path when the name holds no slash |
| ZipTasks.ZipFilePathIsNoUploadPath | nand2tetris/tasks.py:112-119 | an archive path under `<block_type>_zipped` never equals an uploaded file's path |
| ZipTasks.KeptOf | nand2tetris/tasks.py:39-46 | the pair a submission contributes names the student by the user name the anonymous-id lookup gives |
| ZipTasks.StudentSubmissions | nand2tetris/tasks.py:38-48 | at most one pair is kept per submission |
| ZipTasks.StudentSubmissionsSound | nand2tetris/tasks.py:38-48 | every kept pair is the pair of some submission with a truthy answer |
| ZipTasks.StudentSubmissionsComplete | nand2tetris/tasks.py:38-48 | every submission with a truthy answer yields its pair |
| ZipTasks.StudentSubmissionsCount | nand2tetris/tasks.py:38-48 | nothing is kept exactly when no answer is truthy, and with all answers truthy there is one pair per submission |
| ZipTasks.StudentSubmissionsAppend | nand2tetris/tasks.py:38-48 | filtering distributes over concatenation, so input order is kept |
| ZipTasks.ArchivedVersusFinalized | nand2tetris/tasks.py:47 | a submission is archived exactly when its answer is truthy; an empty answer is finalized yet not archived |
| ZipTasks.EntryName | nand2tetris/tasks.py:73-76 | an entry name is the student's user name, an underscore and a slash-free last component of the stored path |
| ZipTasks.EntryNameOfSubmission | nand2tetris/tasks.py:73-76 | a student's file is stored in the archive as `<username>_<sha1><ext>` |
| ZipTasks.FirstMissing | nand2tetris/tasks.py:66-77 | the index of the first pair whose file is not stored: every earlier file is stored |
| ZipTasks.Compress | nand2tetris/tasks.py:66-77 | it succeeds exactly when every kept file is stored, then yields one entry per pair in order, named after the student and holding the stored file; otherwise it reports the path of the first pair whose file is missing |
| ZipTasks.Delete | nand2tetris/tasks.py:101-103 | the archive path is gone afterwards and every other path keeps its content |
| ZipTasks.ZipStudentSubmissions | nand2tetris/tasks.py:87-109 | only the archive path changes, and when it exists afterwards it holds a fresh archive stamped with the run's time |
| ZipTasks.ZipTaskArchive | nand2tetris/tasks.py:51-84 | with no truthy answers nothing is saved; the run completes exactly when every kept file is readable; the archive then has one correctly named entry per kept pair |
| Polling.PollUntilSuccess | nand2tetris/static/js/nand2tetris_student.js:250-272 | at least one and at most `max(1, maxTries)` requests; it resolves with the first response passing the check; it rejects with 'Max tries exceeded.' only after that many failing responses, and at once on a failed request |
| Polling.CheckResponse | nand2tetris/static/js/nand2tetris_student.js:246-248 | a status passes exactly when it reports `zip_available` |
| Polling.PollSubmissionDownload | nand2tetris/static/js/nand2tetris_student.js:73-74 | the staff poll checks `zip_available`, makes at most 100 requests, and waits at most 990000 ms between them in all |
| Handlers.Require | nand2tetris/nand2tetris.py:560-565 | the check passes exactly when the assertion holds, and otherwise raises PermissionDenied |
| Handlers.UploadAssignment | nand2tetris/nand2tetris.py:141-200 | no user is PermissionDenied; a file over the limit is a 413 carrying the limit; a ratio outside [0, 1] or autograder output that is not UTF-8 is a server error; it succeeds exactly in the remaining case, and then stores the file at the path built from its SHA-1 and extension, replacing that path only |
| Handlers.UploadRecordsGrade | nand2tetris/nand2tetris.py:171-191 | an accepted upload records the fold's sums, sets `student_score` to the ratio, stores `final` as its truncated percentage in [0, 100] and publishes the ratio out of 1.0 |
| Handlers.UploadAcceptsBoundedReport | nand2tetris/nand2tetris.py:171-199 | with a user, a file within the limit and text output, an unreadable report or one whose tests all score between 0 and their maximum is accepted |
| Handlers.UploadFailsOnRatioOutsideUnitInterval | nand2tetris/nand2tetris.py:179-183 | one test scoring -1 of 1, or 2 of 1, makes the upload a server error |
| Handlers.ReuploadReplaces | nand2tetris/nand2tetris.py:196-199 | re-uploading the same bytes under a name with the same extension overwrites the same path and adds no file |
| Handlers.UploadedFileIsArchivable | nand2tetris/nand2tetris.py:157 | the answer an upload records points the archive task at the stored bytes |
| Handlers.PrepareDownloadSubmissions | nand2tetris/nand2tetris.py:229-280 | it is PermissionDenied exactly without staff rights or a user, and a rebuild is queued exactly when the archive is not reported downloadable |
| Handlers.CountArchiveFiles | nand2tetris/nand2tetris.py:499-512 | a stored zip archive gives its number of members; any other stored file raises a server error |
| Handlers.ZipFileReady | nand2tetris/nand2tetris.py:260-267 | the archive is ready exactly when its member count equals the number of submissions and it is no older than the newest submission |
| Handlers.PrepareDownloadDecision | nand2tetris/nand2tetris.py:238-276 | downloadable exactly when the archive exists, there is a submission, its member count equals the number of submissions and no submission is newer than it; errors arise only from a missing answer or a stored non-archive |
| Handlers.RebuiltArchiveIsReady | nand2tetris/nand2tetris.py:260-267 | right after a complete rebuild newer than every submission, the handler reports downloadable and queues nothing |

## Left out

- Platform plumbing: block fields and scopes, handler dispatch, template rendering, `Response`
  objects and the views; only the handlers' decisions are modelled.
- The submissions service, cohorts, `user_by_anonymous_id` and blob storage are parameters;
  the sandboxed autograder run is replaced by its report (`Grading.Parsed`) and whether its
  output decodes as UTF-8 (`Handlers.Run`).
- JSON decoding, MD5 and SHA-1 are not modelled; their results are inputs or function
  parameters.
- The task queue, `setTimeout` and jQuery deferreds: the archive task is a function called
  with the current time, and polling is a sequential run over the server's replies.
- Python float rounding: ratios are exact reals, so `int(0.29 * 100)` is 29 here.
- `mimetypes.guess_type`, the content of the stored `result` JSON, and logging.
  `emit_completion` and `json.dumps` are modelled only as the two points where the upload
  fails.
- Handlers.UploadAssignment: a failed upload is a bare `Err(ServerError)`. When `json.dumps`
  fails, `student_score` has already been set and the grade published, and the model does not
  carry those effects. `emit_completion` is platform code outside this repository; its range
  check on [0, 1] is taken as given.
- `get_sorted_submissions` fields other than id, user, timestamp and file name, and the
  cohort lookup; a failing JSON decode of a stored answer is not modelled.
- A truthy answer lacking `sha1` or `filename`, which would make the archive task raise.
- Zip serialization: an archive is its list of entries; a stored upload counted as an archive
  is treated as not being a zip file.
- `download`, `download_assignment`, `download_submissions`, `staff_download`, `load_student_submission`
  and `download_submissions_status`: storage lookups and rendering with no rule of their own
  beyond what is modelled.
- The state-changing handlers `change_cohort` (sets the `cohort` field) and
  `clear_student_state` (deletes each stored upload and resets the score through the
  submissions service) are not modelled: they only write platform state and carry no rule
  the modelled operations depend on.
- The tablesorter date parser and the upload progress percentage in the browser code.

=== FILE: chunked_read.dfy ===
/**
 * Reading a file in fixed-size blocks until a read comes back empty, as `file_contents_iter`
 * streams a stored file and `get_sha1` feeds an upload to SHA-1.
 */
module ChunkedRead {
  import opened Files

  /** `BLOCK_SIZE = 2 ** 10 * 8`. */
  const BlockSize: nat := 8192

  function Concat(blocks: seq<seq<byte>>): seq<byte> {
    if |blocks| == 0 then [] else blocks[0] + Concat(blocks[1..])
  }

  /** The blocks successive `read(BLOCK_SIZE)` calls return for `data`, the final empty read excluded. */
  function Blocks(data: seq<byte>): (r: seq<seq<byte>>)
    ensures Concat(r) == data
    ensures forall i :: 0 <= i < |r| ==> 0 < |r[i]| <= BlockSize
    ensures forall i :: 0 <= i < |r| - 1 ==> |r[i]| == BlockSize
    decreases |data|
  {
    if |data| == 0 then []
    else if |data| <= BlockSize then
      assert Concat([data]) == data + Concat([]);
      [data]
    else
      var rest := Blocks(data[BlockSize..]);
      assert ([data[..BlockSize]] + rest)[1..] == rest;
      assert data == data[..BlockSize] + data[BlockSize..];
      [data[..BlockSize]] + rest
  }

  /** One read peels the first block off the rest. */
  lemma BlocksStep(rem: seq<byte>, block: seq<byte>)
    requires rem != [] && block == rem[..Min(BlockSize, |rem|)]
    ensures Blocks(rem) == [block] + Blocks(rem[|block|..])
  {
    if |rem| <= BlockSize {
      assert rem[|block|..] == [];
    }
  }

  /** A non-empty read moves its block from the blocks still to come to the blocks already read. */
  lemma ReadMovesBlock(done: seq<seq<byte>>, g: File)
    requires Remaining(g) != []
    ensures var (block, next) := Read(g, BlockSize);
      done + Blocks(Remaining(g)) == (done + [block]) + Blocks(Remaining(next))
  {
    var (block, next) := Read(g, BlockSize);
    BlocksStep(Remaining(g), block);
  }

  /**
   * `iter(partial(f.read, BLOCK_SIZE), b'')`: reads until the first empty block. The blocks are
   * non-empty, hold at most 8192 bytes, all but the last exactly 8192, and together they are
   * everything from the starting position to the end; the file is left at its end.
   */
  method ReadBlocks(f: File) returns (blocks: seq<seq<byte>>, g: File)
    ensures blocks == Blocks(Remaining(f))
    ensures Concat(blocks) == Remaining(f)
    ensures forall i :: 0 <= i < |blocks| ==> 0 < |blocks[i]| <= BlockSize
    ensures forall i :: 0 <= i < |blocks| - 1 ==> |blocks[i]| == BlockSize
    ensures g.contents == f.contents && Remaining(g) == []
  {
    blocks := [];
    g := f;
    while true
      invariant g.contents == f.contents
      invariant blocks + Blocks(Remaining(g)) == Blocks(Remaining(f))
      decreases |Remaining(g)|
    {
      var (block, next) := Read(g, BlockSize);
      if block == [] {
        assert Blocks(Remaining(g)) == [];
        break;
      }
      ReadMovesBlock(blocks, g);
      blocks := blocks + [block];
      g := next;
    }
    assert blocks + [] == blocks;
  }

  /**
   * `get_sha1`: hashes the bytes from the current position to the end, fed block by block
   * (hashing is incremental, so the digest is that of their concatenation), then seeks back
   * to the start of the file.
   */
  function GetSha1(f: File, sha1: seq<byte> -> string): (res: (string, File))
    ensures res.0 == sha1(Remaining(f))
    ensures res.1.contents == f.contents && res.1.pos == 0
  {
    var fed := Concat(Blocks(Remaining(f)));
    (sha1(fed), Seek(f, 0))
  }
}

=== FILE: files.dfy ===
/** An open binary file: its bytes and the current read position. */
module Files {

  type byte = b: int | 0 <= b < 256

  /** Python file objects allow the position to lie past the end; reads there return `b''`. */
  datatype File = File(contents: seq<byte>, pos: nat)

  /** The bytes a read from the current position can still return. */
  function Remaining(f: File): seq<byte> {
    if f.pos >= |f.contents| then [] else f.contents[f.pos..]
  }

  function Min(a: nat, b: nat): nat {
    if a <= b then a else b
  }

  /** `f.read(n)`: at most `n` bytes from the current position, which advances past them. */
  function Read(f: File, n: nat): (res: (seq<byte>, File))
    ensures res.0 == Remaining(f)[..Min(n, |Remaining(f)|)]
    ensures res.1.contents == f.contents
    ensures Remaining(res.1) == Remaining(f)[|res.0|..]
  {
    var block := Remaining(f)[..Min(n, |Remaining(f)|)];
    (block, File(f.contents, f.pos + |block|))
  }

  /** `f.seek(p)` from the start of the file. */
  function Seek(f: File, p: nat): File {
    File(f.contents, p)
  }

  /** `f.seek(0, os.SEEK_END)`. */
  function SeekEnd(f: File): File {
    File(f.contents, |f.contents|)
  }

  /** `f.tell()`. */
  function Tell(f: File): nat {
    f.pos
  }
}

=== FILE: grading.dfy ===
/**
 * Turning the autograder's report into the block's score: the fold over the reported
 * tests, the ratio kept in `student_score`, the percentage stored with the submission,
 * and the score the block reports to the platform.
 * Python floats are modelled as exact reals.
 */
module Grading {
  import opened Wrappers

  /** What `int()` is handed for one field of a test entry. */
  datatype Field =
    | Whole(i: int)          // an integer, or text spelling one
    | Fraction(x: real)      // a finite float, which `int()` truncates toward zero
    | Malformed              // a missing key, null, other text, NaN or infinity: `int()` raises

  datatype TestEntry = TestEntry(score: Field, maxScore: Field)

  /** The autograder's stdout after `json.loads(output)["tests"]`; NotParsed when decoding or the lookup raises. */
  datatype Parsed = NotParsed | Tests(entries: seq<TestEntry>)

  /** Truncation toward zero, as `int()` of a float. */
  function Trunc(x: real): (r: int)
    ensures 0.0 <= x ==> 0 <= r && r as real <= x < r as real + 1.0
    ensures x < 0.0 ==> r <= 0 && r as real - 1.0 < x <= r as real
  {
    if x >= 0.0 then x.Floor else -((-x).Floor)
  }

  predicate WellFormed(t: TestEntry) {
    !t.score.Malformed? && !t.maxScore.Malformed?
  }

  predicate AllWellFormed(tests: seq<TestEntry>) {
    forall i :: 0 <= i < |tests| ==> WellFormed(tests[i])
  }

  /** The integer `int()` makes of a field; 0 stands in for a field it rejects. */
  function Value(f: Field): int {
    match f
    case Whole(i) => i
    case Fraction(x) => Trunc(x)
    case Malformed => 0
  }

  function SumScore(tests: seq<TestEntry>): int {
    if |tests| == 0 then 0 else Value(tests[0].score) + SumScore(tests[1..])
  }

  function SumMax(tests: seq<TestEntry>): int {
    if |tests| == 0 then 0 else Value(tests[0].maxScore) + SumMax(tests[1..])
  }

  /** The index of the first entry the loop raises on, or the length when there is none. */
  function FirstMalformed(tests: seq<TestEntry>): (k: nat)
    ensures k <= |tests|
    ensures forall i :: 0 <= i < k ==> WellFormed(tests[i])
    ensures k < |tests| ==> !WellFormed(tests[k])
  {
    if |tests| == 0 || !WellFormed(tests[0]) then 0 else 1 + FirstMalformed(tests[1..])
  }

  /** The two running sums when the loop stops, and whether it ran to the end. */
  datatype Sums = Sums(score: int, maxScore: int, completed: bool)

  /**
   * The loop over the reported tests, adding `int(test["score"])` and then
   * `int(test["max_score"])` to the running sums. The first entry `int()` rejects ends it;
   * the sums reached so far are kept, and an entry whose score converts but whose maximum
   * does not still has its score added.
   */
  function Accumulate(tests: seq<TestEntry>, score: int, maxScore: int): (r: Sums)
    ensures var k := FirstMalformed(tests);
      && (r.completed <==> k == |tests|)
      && r.maxScore == maxScore + SumMax(tests[..k])
      && r.score == score + SumScore(tests[..k]) + (if k < |tests| then Value(tests[k].score) else 0)
    decreases |tests|
  {
    if |tests| == 0 then Sums(score, maxScore, true)
    else if tests[0].score.Malformed? then Sums(score, maxScore, false)
    else if tests[0].maxScore.Malformed? then Sums(score + Value(tests[0].score), maxScore, false)
    else
      var r := Accumulate(tests[1..], score + Value(tests[0].score), maxScore + Value(tests[0].maxScore));
      var k := FirstMalformed(tests);
      assert tests[..k][1..] == tests[1..][..k - 1];
      r
  }

  /** The sums the submission records and the ratio left in `student_score`. */
  datatype Grade = Grade(score: int, maxScore: int, ratio: real)

  /**
   * The grading step of an upload: `student_score` is reset to 0.0, and becomes
   * `score / max_score` only when the whole report was read and `max_score` is positive.
   */
  function Aggregate(p: Parsed): (g: Grade)
    ensures p.NotParsed? ==> g == Grade(0, 0, 0.0)
    ensures p.Tests? && AllWellFormed(p.entries) ==>
      g.score == SumScore(p.entries) && g.maxScore == SumMax(p.entries)
    ensures p.Tests? ==> var k := FirstMalformed(p.entries);
      && g.maxScore == SumMax(p.entries[..k])
      && g.score == SumScore(p.entries[..k]) + (if k < |p.entries| then Value(p.entries[k].score) else 0)
    ensures g.ratio == (if p.Tests? && AllWellFormed(p.entries) && g.maxScore > 0
                        then g.score as real / g.maxScore as real else 0.0)
  {
    match p
    case NotParsed => Grade(0, 0, 0.0)
    case Tests(entries) =>
      var sums := Accumulate(entries, 0, 0);
      assert entries[..|entries|] == entries;
      if sums.completed && sums.maxScore > 0 then
        Grade(sums.score, sums.maxScore, sums.score as real / sums.maxScore as real)
      else Grade(sums.score, sums.maxScore, 0.0)
  }

  /**
   * A report whose second entry has a malformed maximum: its score is still added, the
   * maxima stop at the first entry, and the ratio stays 0 although `max_score` is positive.
   */
  lemma PartialSumsWhenMaximumMalformed()
    ensures Aggregate(Tests([TestEntry(Whole(2), Whole(3)), TestEntry(Whole(1), Malformed)]))
         == Grade(3, 3, 0.0)
  {
    var tests := [TestEntry(Whole(2), Whole(3)), TestEntry(Whole(1), Malformed)];
    assert FirstMalformed(tests[1..]) == 0;
    assert FirstMalformed(tests) == 1;
    assert tests[..1] == [tests[0]];
    assert SumScore(tests[..1][1..]) == 0 && SumMax(tests[..1][1..]) == 0 by { assert tests[..1][1..] == []; }
    assert SumScore(tests[..1]) == 2 && SumMax(tests[..1]) == 3;
  }

  /** The `final` percentage stored with a submission: `int(student_score * 100)`. */
  function FinalPercent(ratio: real): (f: int)
    ensures 0.0 <= ratio ==> 0 <= f && f as real <= ratio * 100.0 < f as real + 1.0
    ensures ratio < 0.0 ==> f <= 0 && f as real - 1.0 < ratio * 100.0 <= f as real
  {
    Trunc(ratio * 100.0)
  }

  /** The JSON `score` object stored with a submission. */
  datatype ScoreRecord = ScoreRecord(final: int, score: int, maxScore: int)

  /** The record keeps the fold's sums and stores the ratio as a percentage, 0 to 100 for a ratio in [0, 1]. */
  function ScoreRecordOf(g: Grade): (r: ScoreRecord)
    ensures r.score == g.score && r.maxScore == g.maxScore
    ensures 0.0 <= g.ratio <= 1.0 ==> 0 <= r.final <= 100
    ensures g.ratio == 1.0 ==> r.final == 100
  {
    PercentBounds(g.ratio);
    ScoreRecord(FinalPercent(g.ratio), g.score, g.maxScore)
  }

  lemma {:induction false} SumScoreAtMostSumMax(tests: seq<TestEntry>)
    requires forall i :: 0 <= i < |tests| ==> 0 <= Value(tests[i].score) <= Value(tests[i].maxScore)
    ensures 0 <= SumScore(tests) <= SumMax(tests)
    decreases |tests|
  {
    if |tests| > 0 {
      SumScoreAtMostSumMax(tests[1..]);
    }
  }

  /**
   * When every test scores between 0 and its maximum, the ratio lies in [0, 1] and the
   * stored percentage in [0, 100]; a perfect report gives exactly 100.
   */
  lemma GradeWithinBounds(p: Parsed)
    requires p.Tests?
    requires forall i :: 0 <= i < |p.entries| ==>
      WellFormed(p.entries[i]) && 0 <= Value(p.entries[i].score) <= Value(p.entries[i].maxScore)
    ensures var g := Aggregate(p);
      && 0.0 <= g.ratio <= 1.0
      && 0 <= ScoreRecordOf(g).final <= 100
      && (g.maxScore > 0 && g.score == g.maxScore ==> ScoreRecordOf(g).final == 100)
  {
    var g := Aggregate(p);
    SumScoreAtMostSumMax(p.entries);
    if g.maxScore > 0 {
      RatioAtMostOne(g.score as real, g.maxScore as real);
    }
    PercentBounds(g.ratio);
  }

  lemma RatioAtMostOne(s: real, m: real)
    requires 0.0 <= s <= m && 0.0 < m
    ensures 0.0 <= s / m <= 1.0
    ensures s == m ==> s / m == 1.0
  {
    assert (s / m) * m == s;
  }

  lemma PercentBounds(ratio: real)
    ensures 0.0 <= ratio <= 1.0 ==> 0 <= FinalPercent(ratio) <= 100
    ensures ratio == 1.0 ==> FinalPercent(ratio) == 100
  {
    if 0.0 <= ratio <= 1.0 {
      assert 0.0 <= ratio * 100.0 <= 100.0;
    }
    if ratio == 1.0 {
      assert ratio * 100.0 == 100.0;
      assert (100.0).Floor == 100;
    }
  }

  /** `student_score`'s default: the block has not been graded. */
  const NotSubmitted: real := -1.0

  /** `raw_earned` out of `raw_possible`, as reported to the platform. */
  datatype Score = Score(earned: real, possible: real)

  /** `has_submitted_answer`. */
  predicate HasSubmittedAnswer(studentScore: real)
    ensures studentScore >= 0.0 ==> HasSubmittedAnswer(studentScore)
    ensures !HasSubmittedAnswer(studentScore) ==> GetScore(studentScore) == Score(0.0, 1.0)
  {
    studentScore != NotSubmitted
  }

  /** `get_score`: the ratio out of 1.0, with anything negative, the default included, reported as 0. */
  function GetScore(studentScore: real): (s: Score)
    ensures s.possible == 1.0 && s.earned >= 0.0
    ensures s.earned >= studentScore
    ensures s.earned == studentScore || s.earned == 0.0
  {
    Score(if studentScore > 0.0 then studentScore else 0.0, 1.0)
  }

  /** `set_score`: `raw_earned / raw_possible`; None when the division raises. */
  function SetScore(s: Score): (r: Option<real>)
    ensures r.None? <==> s.possible == 0.0
    ensures r.Some? ==> r.value * s.possible == s.earned
  {
    if s.possible == 0.0 then None else Some(s.earned / s.possible)
  }

  /**
   * Writing back what `get_score` reports restores a graded ratio exactly, but turns the
   * "not submitted" default (and any other negative ratio) into a submitted 0.
   */
  lemma ScoreRoundTrip(studentScore: real)
    ensures SetScore(GetScore(studentScore)) == Some(studentScore) <==> studentScore >= 0.0
    ensures studentScore < 0.0 ==> SetScore(GetScore(studentScore)) == Some(0.0)
    ensures !HasSubmittedAnswer(studentScore) ==> HasSubmittedAnswer(SetScore(GetScore(studentScore)).value)
  {
  }

  /**
   * After an upload the block counts as submitted unless the report's ratio is exactly -1;
   * with no negative score in the report it always does.
   */
  lemma UploadMarksSubmitted(p: Parsed)
    ensures (p.Tests? ==> forall i :: 0 <= i < |p.entries| ==> Value(p.entries[i].score) >= 0)
      ==> HasSubmittedAnswer(Aggregate(p).ratio)
  {
    var g := Aggregate(p);
    if p.Tests? && AllWellFormed(p.entries) && g.maxScore > 0
       && forall i :: 0 <= i < |p.entries| ==> Value(p.entries[i].score) >= 0 {
      SumScoreNonNegative(p.entries);
      assert g.score as real / g.maxScore as real >= 0.0;
    }
  }

  lemma {:induction false} SumScoreNonNegative(tests: seq<TestEntry>)
    requires forall i :: 0 <= i < |tests| ==> Value(tests[i].score) >= 0
    ensures SumScore(tests) >= 0
    decreases |tests|
  {
    if |tests| > 0 {
      SumScoreNonNegative(tests[1..]);
    }
  }

  /** A report of one test with a positive maximum gives the plain quotient. */
  lemma SingleTestRatio(score: int, maxScore: int)
    requires maxScore > 0
    ensures Aggregate(Tests([TestEntry(Whole(score), Whole(maxScore))])).ratio == score as real / maxScore as real
  {
    var tests := [TestEntry(Whole(score), Whole(maxScore))];
    assert tests[1..] == [];
    assert FirstMalformed(tests) == 1;
    assert SumScore(tests) == score && SumMax(tests) == maxScore;
  }

  /** A ratio of -1, the score of one test scoring -1 out of 1, reads as if nothing was submitted. */
  lemma NegativeReportReadsAsUnsubmitted()
    ensures Aggregate(Tests([TestEntry(Whole(-1), Whole(1))])).ratio == -1.0
    ensures !HasSubmittedAnswer(Aggregate(Tests([TestEntry(Whole(-1), Whole(1))])).ratio)
  {
    SingleTestRatio(-1, 1);
  }
}

=== FILE: handlers.dfy ===
/**
 * The block's handlers that carry logic of their own: `upload_assignment` (size guard,
 * grading, storing the file) and `prepare_download_submissions` (reuse or rebuild the staff
 * archive), with `require` and `_get_xblock_loc`. Platform services are parameters: storage
 * is a map, the autograder's run and the clock are inputs, the hash functions and the
 * anonymous-id lookup are functions handed in.
 */
module Handlers {
  import opened Wrappers
  import opened Files
  import opened PathText
  import opened StorageLayout
  import opened Submissions
  import opened Grading
  import opened UploadLimit
  import opened ChunkedRead
  import opened ZipTasks

  /** The block's identity and the services it calls that return plain values. */
  datatype Block = Block(
    loc: Locator,
    courseId: string,                // `block_course_id`
    blockId: string,                 // `block_id`, the usage id as text
    md5hex: string -> string,
    sha1hex: seq<byte> -> string,
    usernameOf: string -> string)    // `user_by_anonymous_id(...).username`

  /** How a handler ends instead of returning its response. */
  datatype HandlerError =
    | PermissionDenied               // `require` failed
    | EntityTooLarge(limit: int)     // the 413 error of the upload handler
    | ServerError                    // an exception the handler does not catch

  /** `require`: PermissionDenied unless the assertion holds. */
  function Require(assertion: bool): (r: Option<HandlerError>)
    ensures r.None? <==> assertion
    ensures r.Some? ==> r.value == PermissionDenied
  {
    if assertion then None else Some(PermissionDenied)
  }

  /** `_get_xblock_loc`: the part of the location after its last `@`, that is its longest `@`-free suffix. */
  function XBlockLoc(location: string): (id: string)
    ensures '@' !in id && IsSuffix(id, location)
    ensures |id| < |location| ==> location[|location| - |id| - 1] == '@'
  {
    LastSegmentShape(location, '@');
    LastSegment(location, '@')
  }

  /** For a usage key `...@problem+block@<id>` the trailing id is recovered. */
  lemma XBlockLocOfUsageKey(prefix: string, id: string)
    requires '@' !in id
    ensures XBlockLoc(prefix + "@" + id) == id
  {
    LastSegmentAfterSeparator(prefix, '@', id);
  }

  // ----------- upload_assignment -----------

  /**
   * What the autograder container hands back: whether its stdout and stderr both decode as
   * UTF-8, and the report read from stdout. Output that does not decode stays bytes, which
   * `json.dumps` then refuses when the answer is built.
   */
  datatype Run = Run(textOutput: bool, report: Parsed)

  /** `emit_completion` of the platform's completion mixin raises unless the value lies in [0.0, 1.0]. */
  predicate CompletionAccepted(ratio: real) {
    0.0 <= ratio <= 1.0
  }

  /** The answer recorded with a new submission. */
  datatype SubmittedAnswer = SubmittedAnswer(sha1: string, filename: string, score: ScoreRecord)

  /**
   * A successful upload: the answer, the new `student_score`, the score published to the
   * platform, where the file went and storage after it.
   */
  datatype Uploaded = Uploaded(answer: SubmittedAnswer, studentScore: real, published: Score, path: string, storage: Storage)

  /**
   * `upload_assignment` for a file uploaded as `filename`, graded by `run`, at time `now`.
   * It needs a user, hashes the file and refuses it with 413 when it is over the limit. It
   * then grades it; a ratio outside [0, 1] makes `emit_completion` raise, and autograder output
   * that is not UTF-8 makes building the answer raise. Otherwise the file is stored at its
   * content-addressed path, replacing whatever was there.
   */
  function UploadAssignment(block: Block, user: Option<string>, upload: File, filename: string,
                            setting: Option<int>, run: Run, storage: Storage, now: int): (r: Result<Uploaded, HandlerError>)
    ensures user.None? <==> r == Err(PermissionDenied)
    ensures user.Some? && |upload.contents| > StudentUploadMaxSize(setting)
        <==> r == Err(EntityTooLarge(StudentUploadMaxSize(setting)))
    ensures r == Err(ServerError)
        <==> user.Some? && |upload.contents| <= StudentUploadMaxSize(setting)
             && (!CompletionAccepted(Aggregate(run.report).ratio) || !run.textOutput)
    ensures r.Ok? <==>
      user.Some? && |upload.contents| <= StudentUploadMaxSize(setting)
      && CompletionAccepted(Aggregate(run.report).ratio) && run.textOutput
    ensures r.Ok? ==>
      && r.value.answer.sha1 == block.sha1hex(Remaining(upload))
      && r.value.path == StoragePath(block.loc, r.value.answer.sha1, filename)
      && r.value.path in r.value.storage
      && r.value.storage[r.value.path] == Stored(Bytes(upload.contents), now)
      && (forall q :: q != r.value.path ==> (q in r.value.storage <==> q in storage))
      && (forall q :: q != r.value.path && q in storage ==> r.value.storage[q] == storage[q])
  {
    if Require(user.Some?).Some? then Err(PermissionDenied)
    else
      var (sha1, hashed) := GetSha1(upload, block.sha1hex);
      var (over, _) := FileSizeOverLimit(hashed, setting);
      if over then Err(EntityTooLarge(StudentUploadMaxSize(setting)))
      else
        var grade := Aggregate(run.report);
        if !CompletionAccepted(grade.ratio) || !run.textOutput then Err(ServerError)
        else
          var path := StoragePath(block.loc, sha1, filename);
          var answer := SubmittedAnswer(sha1, filename, ScoreRecordOf(grade));
          Ok(Uploaded(answer, grade.ratio, GetScore(grade.ratio), path,
                      Delete(storage, path)[path := Stored(Bytes(upload.contents), now)]))
  }

  /**
   * The score an accepted upload records: the sums the fold reached, the ratio it leaves in
   * `student_score`, and the truncated percentage of that ratio.
   */
  lemma UploadRecordsGrade(block: Block, user: Option<string>, upload: File, filename: string,
                           setting: Option<int>, run: Run, storage: Storage, now: int)
    requires var r := UploadAssignment(block, user, upload, filename, setting, run, storage, now); r.Ok?
    ensures var r := UploadAssignment(block, user, upload, filename, setting, run, storage, now);
      && r.value.studentScore == Aggregate(run.report).ratio
      && r.value.answer.score.score == Aggregate(run.report).score
      && r.value.answer.score.maxScore == Aggregate(run.report).maxScore
      && r.value.answer.score.final == Trunc(r.value.studentScore * 100.0)
      && 0 <= r.value.answer.score.final <= 100
      && r.value.published == Score(r.value.studentScore, 1.0)
      && (run.report.NotParsed? ==> r.value.answer.score == ScoreRecord(0, 0, 0))
  {
    PercentBounds(Aggregate(run.report).ratio);
  }

  /**
   * A report the autograder could not produce, or one whose every test scores between 0 and
   * its maximum, is accepted whenever the output is text, there is a user and the file fits.
   */
  lemma UploadAcceptsBoundedReport(block: Block, user: Option<string>, upload: File, filename: string,
                                   setting: Option<int>, run: Run, storage: Storage, now: int)
    requires user.Some? && |upload.contents| <= StudentUploadMaxSize(setting) && run.textOutput
    requires run.report.Tests? ==> forall i :: 0 <= i < |run.report.entries| ==>
      WellFormed(run.report.entries[i]) && 0 <= Value(run.report.entries[i].score) <= Value(run.report.entries[i].maxScore)
    ensures UploadAssignment(block, user, upload, filename, setting, run, storage, now).Ok?
  {
    if run.report.Tests? {
      GradeWithinBounds(run.report);
    }
  }

  /**
   * A test scoring -1 of 1, or 2 of 1, gives a ratio `emit_completion` refuses: the upload
   * fails after grading, before any submission is created or any file is stored.
   */
  lemma UploadFailsOnRatioOutsideUnitInterval(block: Block, user: Option<string>, upload: File, filename: string,
                                              setting: Option<int>, storage: Storage, now: int, textOutput: bool)
    requires user.Some? && |upload.contents| <= StudentUploadMaxSize(setting)
    ensures UploadAssignment(block, user, upload, filename, setting,
                             Run(textOutput, Tests([TestEntry(Whole(-1), Whole(1))])), storage, now) == Err(ServerError)
    ensures UploadAssignment(block, user, upload, filename, setting,
                             Run(textOutput, Tests([TestEntry(Whole(2), Whole(1))])), storage, now) == Err(ServerError)
  {
    var low, high := Tests([TestEntry(Whole(-1), Whole(1))]), Tests([TestEntry(Whole(2), Whole(1))]);
    SingleTestRatio(-1, 1);
    SingleTestRatio(2, 1);
    assert !CompletionAccepted(Aggregate(low).ratio) && !CompletionAccepted(Aggregate(high).ratio);
  }

  /**
   * Uploading the same bytes again under a name with the same extension lands on the same
   * path, so the second upload replaces the first rather than adding a file.
   */
  lemma ReuploadReplaces(block: Block, user: Option<string>, upload: File, name1: string, name2: string,
                         setting: Option<int>, run1: Run, run2: Run, storage: Storage, t1: int, t2: int)
    requires user.Some? && |upload.contents| <= StudentUploadMaxSize(setting)
    requires run1.textOutput && CompletionAccepted(Aggregate(run1.report).ratio)
    requires run2.textOutput && CompletionAccepted(Aggregate(run2.report).ratio)
    requires Ext(name1) == Ext(name2)
    ensures var r1 := UploadAssignment(block, user, upload, name1, setting, run1, storage, t1);
      var r2 := UploadAssignment(block, user, upload, name2, setting, run2, r1.value.storage, t2);
      && r2.value.path == r1.value.path
      && r2.value.storage.Keys == r1.value.storage.Keys
      && r2.value.storage[r2.value.path].modified == t2
  {
    var r1 := UploadAssignment(block, user, upload, name1, setting, run1, storage, t1);
    var h := block.sha1hex(Remaining(upload));
    StoragePathIdentity(block.loc, h, name1, h, name2);
  }

  /** The submission an accepted upload creates names a file the archive task can read back. */
  lemma UploadedFileIsArchivable(block: Block, user: Option<string>, upload: File, filename: string,
                                 setting: Option<int>, run: Run, storage: Storage, now: int, s: Submission)
    requires var r := UploadAssignment(block, user, upload, filename, setting, run, storage, now);
      r.Ok? && s.answer == Filled(r.value.answer.sha1, filename, None)
    ensures var r := UploadAssignment(block, user, upload, filename, setting, run, storage, now);
      && KeptOf(s, block.loc, block.usernameOf).path in r.value.storage
      && r.value.storage[KeptOf(s, block.loc, block.usernameOf).path].blob == Bytes(upload.contents)
  {
  }

  // ----------- prepare_download_submissions -----------

  /** The JSON answer of the handler; a rebuild is queued exactly when the archive is not reported downloadable. */
  datatype Readiness = Readiness(downloadable: bool, rebuildQueued: bool)

  /** `count_archive_files`: the number of members; a blob that is not an archive makes `ZipFile` raise. */
  function CountArchiveFiles(blob: Blob): (r: Result<nat, HandlerError>)
    ensures r.Ok? <==> blob.Zip?
    ensures r.Ok? ==> r.value == |blob.entries|
    ensures r.Err? ==> r.error == ServerError
  {
    match blob
    case Zip(entries) => Ok(|entries|)
    case Bytes(_) => Err(ServerError)
  }

  /**
   * The reuse rule: the archive is at least as new as the newest submission, and it holds as
   * many members as there are submissions (someone may have reset one).
   */
  function ZipFileReady(archiveTime: int, newestSubmission: int, archiveFiles: nat, submissions: nat): (ready: bool)
    ensures ready <==> archiveFiles == submissions && newestSubmission <= archiveTime
  {
    var ready := archiveTime >= newestSubmission;
    if archiveFiles != submissions then false else ready
  }

  /**
   * `prepare_download_submissions` for a staff member `user`: reports whether the existing
   * archive can be downloaded, and queues a rebuild when it cannot.
   */
  function PrepareDownloadSubmissions(block: Block, isStaff: bool, user: Option<string>,
                                      storage: Storage, subs: seq<Submission>): (r: Result<Readiness, HandlerError>)
    ensures r.Ok? ==> r.value.rebuildQueued == !r.value.downloadable
    ensures r == Err(PermissionDenied) <==> !isStaff || user.None?
  {
    if Require(isStaff).Some? || Require(user.Some?).Some? then Err(PermissionDenied)
    else
      var p := ZipFilePath(user.value, block.courseId, block.blockId, block.loc, block.md5hex);
      if p !in storage then Ok(Readiness(false, true))
      else
        match SortedSubmissions(subs, block.usernameOf)
        case Err(_) => Err(ServerError)
        case Ok(rows) =>
          if |rows| == 0 then Ok(Readiness(false, true))
          else
            match CountArchiveFiles(storage[p].blob)
            case Err(e) => Err(e)
            case Ok(count) =>
              var ready := ZipFileReady(storage[p].modified, rows[0].timestamp, count, |rows|);
              Ok(Readiness(ready, !ready))
  }

  /**
   * The decision stated without the sort: the archive is reported downloadable exactly when it
   * exists, there is a submission, it has one member per submission, and no submission's
   * timestamp is later than the archive's modification time. The handler fails only for a
   * missing permission, or, once the archive exists, for a submission without an answer or a
   * stored archive that is not a zip file.
   */
  lemma PrepareDownloadDecision(block: Block, isStaff: bool, user: Option<string>,
                                storage: Storage, subs: seq<Submission>)
    requires isStaff && user.Some?
    ensures var r := PrepareDownloadSubmissions(block, isStaff, user, storage, subs);
      var p := ZipFilePath(user.value, block.courseId, block.blockId, block.loc, block.md5hex);
      && (r.Err? <==>
            && p in storage
            && ((exists i :: 0 <= i < |subs| && !subs[i].answer.Filled?) || (|subs| > 0 && storage[p].blob.Bytes?)))
      && (r.Ok? ==> (r.value.downloadable <==>
            && p in storage
            && |subs| > 0
            && storage[p].blob.Zip?
            && |storage[p].blob.entries| == |subs|
            && forall i :: 0 <= i < |subs| ==> Timestamp(subs[i]) <= storage[p].modified))
  {
    var p := ZipFilePath(user.value, block.courseId, block.blockId, block.loc, block.md5hex);
    if p in storage && forall i :: 0 <= i < |subs| ==> subs[i].answer.Filled? {
      SortedSubmissionsNewest(subs, block.usernameOf);
    }
  }

  /**
   * A staff member whose archive was just rebuilt, after every submission was made, from
   * submissions that all have stored files is told it is downloadable and no rebuild is queued.
   */
  lemma RebuiltArchiveIsReady(block: Block, user: string, storage: Storage, subs: seq<Submission>, now: int)
    requires user == [] || user[0] != '/'
    requires |subs| > 0
    requires forall i :: 0 <= i < |subs| ==> subs[i].answer.Filled?
    requires forall i :: 0 <= i < |subs| ==> Timestamp(subs[i]) <= now
    requires forall i :: 0 <= i < |subs| ==>
      StoragePath(block.loc, subs[i].answer.sha1, subs[i].answer.filename) in storage
    ensures var run := ZipStudentSubmissions(user, block.courseId, block.blockId, block.loc, block.md5hex,
                                             block.usernameOf, subs, storage, now);
      && run.completed
      && PrepareDownloadSubmissions(block, true, Some(user), run.storage, subs) == Ok(Readiness(true, false))
  {
    var run := ZipStudentSubmissions(user, block.courseId, block.blockId, block.loc, block.md5hex,
                                     block.usernameOf, subs, storage, now);
    var p := ZipFilePath(user, block.courseId, block.blockId, block.loc, block.md5hex);
    var kept := StudentSubmissions(subs, block.loc, block.usernameOf);
    StudentSubmissionsCount(subs, block.loc, block.usernameOf);
    assert kept != [];
    forall i | 0 <= i < |kept|
      ensures kept[i].path in storage && kept[i].path != p
    {
      StudentSubmissionsSound(subs, block.loc, block.usernameOf, kept[i]);
      var j :| 0 <= j < |subs| && YieldedBy(kept[i], subs[j], block.loc, block.usernameOf);
      ZipFilePathIsNoUploadPath(user, block.courseId, block.blockId, block.loc, block.md5hex,
                                subs[j].answer.sha1, subs[j].answer.filename);
    }
    ZipTaskArchive(user, block.courseId, block.blockId, block.loc, block.md5hex, block.usernameOf, subs, storage, now);
    PrepareDownloadDecision(block, true, Some(user), run.storage, subs);
  }
}

=== FILE: path_text.dfy ===
/**
 * The few Python string and path operations the component leans on, written out with
 * the behaviour CPython documents for them: `s.split(sep)[-1]`, `posixpath.basename`,
 * `posixpath.splitext` and two-argument `posixpath.join`.
 */
module PathText {

  /** The position of the last `sep` among the first `n` characters of `s`, or -1 when there is none. */
  function LastIndexBefore(s: string, sep: char, n: nat): (k: int)
    requires n <= |s|
    ensures -1 <= k < n
    ensures k >= 0 ==> s[k] == sep
    ensures forall j :: k < j < n ==> s[j] != sep
  {
    if n == 0 then -1
    else if s[n - 1] == sep then n - 1
    else LastIndexBefore(s, sep, n - 1)
  }

  function LastIndex(s: string, sep: char): (k: int)
    ensures -1 <= k < |s|
    ensures k >= 0 ==> s[k] == sep
    ensures forall j :: k < j < |s| ==> s[j] != sep
  {
    LastIndexBefore(s, sep, |s|)
  }

  /** The last separator is the one with no separator after it. */
  lemma LastIndexUnique(s: string, sep: char, k: int)
    requires -1 <= k < |s| && (k >= 0 ==> s[k] == sep)
    requires forall j :: k < j < |s| ==> s[j] != sep
    ensures LastIndex(s, sep) == k
  {
  }

  /** The text after the last `sep` in `s`, or all of `s` when `sep` does not occur: `s.split(sep)[-1]`. */
  function LastSegment(s: string, sep: char): (r: string)
    ensures sep !in r
  {
    s[LastIndex(s, sep) + 1..]
  }

  /** The last segment is a suffix, preceded by a separator unless it is the whole text. */
  lemma LastSegmentShape(s: string, sep: char)
    ensures var r := LastSegment(s, sep);
      && IsSuffix(r, s)
      && (|r| == |s| <==> sep !in s)
      && (|r| < |s| ==> s[|s| - |r| - 1] == sep)
  {
    var k := LastIndex(s, sep);
    if sep in s {
      var i :| 0 <= i < |s| && s[i] == sep;
      assert k >= i;
    }
  }

  /** Without a separator the whole text is the last segment. */
  lemma LastSegmentWithoutSeparator(s: string, sep: char)
    requires sep !in s
    ensures LastSegment(s, sep) == s
  {
    LastIndexUnique(s, sep, -1);
  }

  /** A segment that follows a separator is recovered exactly, whatever precedes it. */
  lemma LastSegmentAfterSeparator(prefix: string, sep: char, t: string)
    requires sep !in t
    ensures LastSegment(prefix + [sep] + t, sep) == t
  {
    var s := prefix + [sep] + t;
    assert forall j :: |prefix| < j < |s| ==> s[j] == t[j - |prefix| - 1];
    LastIndexUnique(s, sep, |prefix|);
    assert s[|prefix| + 1..] == t;
  }

  /** Appending text that starts a new segment, or holds a separator, decides the last segment alone. */
  lemma LastSegmentOfAppend(u: string, t: string, sep: char)
    requires sep in t || u == [] || u[|u| - 1] == sep
    ensures LastSegment(u + t, sep) == LastSegment(t, sep)
  {
    var k := LastIndex(t, sep);
    LastIndexOfAppend(u, t, sep);
    if k >= 0 {
      assert (u + t)[|u| + k + 1..] == t[k + 1..];
    } else if u != [] {
      assert (u + t)[|u|..] == t;
    }
  }

  /** The last separator of `u + t` is the last one of `t` when it has one, and otherwise the last one of `u`. */
  lemma LastIndexOfAppend(u: string, t: string, sep: char)
    ensures LastIndex(u + t, sep) == if LastIndex(t, sep) >= 0 then |u| + LastIndex(t, sep) else LastIndex(u, sep)
  {
    var s := u + t;
    var k := LastIndex(t, sep);
    if k >= 0 {
      assert forall j :: |u| + k < j < |s| ==> s[j] == t[j - |u|];
      LastIndexUnique(s, sep, |u| + k);
    } else {
      var m := LastIndex(u, sep);
      assert forall j :: m < j < |u| ==> s[j] == u[j];
      assert forall j :: |u| <= j < |s| ==> s[j] == t[j - |u|];
      LastIndexUnique(s, sep, m);
    }
  }

  /** Texts with a common prefix and equal-length middles are equal exactly when middles and tails are. */
  lemma ConcatCancel(p: string, x1: string, y1: string, x2: string, y2: string)
    requires |x1| == |x2|
    ensures p + x1 + y1 == p + x2 + y2 <==> x1 == x2 && y1 == y2
  {
    var s1, s2 := p + x1 + y1, p + x2 + y2;
    if s1 == s2 {
      assert x1 == s1[|p|..|p| + |x1|];
      assert x2 == s2[|p|..|p| + |x2|];
      assert y1 == s1[|p| + |x1|..];
      assert y2 == s2[|p| + |x2|..];
    }
  }

  /** Texts that agree up to a point and differ in the next character are different. */
  lemma DifferAfterPrefix(p: string, x: string, y: string)
    requires |x| > 0 && |y| > 0 && x[0] != y[0]
    ensures p + x != p + y
  {
    assert (p + x)[|p|] == x[0];
    assert (p + y)[|p|] == y[0];
  }

  /** `posixpath.basename(p)`: everything after the last slash. */
  function Basename(p: string): string {
    LastSegment(p, '/')
  }

  predicate AllDots(s: string) {
    forall i :: 0 <= i < |s| ==> s[i] == '.'
  }

  /**
   * `posixpath.splitext(p)[1]`: the last dot of the final path component and what follows
   * it, unless that component consists of dots up to this last one (`.bashrc`, `..x`).
   */
  function Ext(p: string): (e: string)
    ensures '/' !in e
  {
    ComponentExt(Basename(p))
  }

  /** The extension of one path component: the `splitext` rule without the directory part. */
  function ComponentExt(b: string): (e: string)
    ensures '/' !in b ==> '/' !in e
  {
    if '.' !in b || AllDots(Stem(b)) then "" else "." + LastSegment(b, '.')
  }

  /** What precedes the last dot of a component. */
  function Stem(b: string): string
    requires '.' in b
  {
    b[..LastIndex(b, '.')]
  }

  /** `e` ends `p`. */
  predicate IsSuffix(e: string, p: string) {
    |e| <= |p| && e == p[|p| - |e|..]
  }

  /** `e` is empty or one dot followed by dot-free text. */
  predicate ExtForm(e: string) {
    e == [] || (e[0] == '.' && '.' !in e[1..])
  }

  /** An extension is empty or one dot followed by dot-free text, and it ends the path. */
  lemma ExtShape(p: string)
    ensures ExtForm(Ext(p)) && IsSuffix(Ext(p), p)
  {
    var b := Basename(p);
    LastSegmentShape(p, '/');
    ComponentExtShape(b);
    SuffixOfSuffix(p, b, ComponentExt(b));
  }

  /** A suffix of a suffix of `p` is a suffix of `p`. */
  lemma SuffixOfSuffix(p: string, b: string, e: string)
    requires IsSuffix(b, p) && IsSuffix(e, b)
    ensures IsSuffix(e, p)
  {
  }

  lemma ComponentExtShape(b: string)
    ensures ExtForm(ComponentExt(b)) && IsSuffix(ComponentExt(b), b)
  {
    var e := ComponentExt(b);
    if e != [] {
      var k := LastIndex(b, '.');
      assert e[1..] == LastSegment(b, '.');
      assert e == b[k..];
    }
  }

  /**
   * A slash-free name whose part before its last dot is not all dots has everything from that
   * last dot as its extension (`submissao.zip` and `.a.zip` give `.zip`).
   */
  lemma ExtOfName(stem: string, tail: string)
    requires '/' !in stem && '/' !in tail && '.' !in tail
    requires !AllDots(stem)
    ensures Ext(stem + "." + tail) == "." + tail
  {
    var b := stem + "." + tail;
    assert b == stem + ['.'] + tail;
    assert '/' !in b;
    LastSegmentWithoutSeparator(b, '/');
    LastSegmentAfterSeparator(stem, '.', tail);
    assert b[|stem|] == '.';
    assert Stem(b) == stem;
  }

  /** A name that starts with its only dot has no extension (`.bashrc`). */
  lemma ExtOfDotName(tail: string)
    requires '/' !in tail && '.' !in tail
    ensures Ext("." + tail) == ""
  {
    var b := "." + tail;
    assert b == [] + ['.'] + tail;
    assert '/' !in b;
    LastSegmentWithoutSeparator(b, '/');
    LastSegmentAfterSeparator([], '.', tail);
    assert b[0] == '.';
    assert Stem(b) == [];
  }

  /** Two-argument `posixpath.join(a, b)`. */
  function Join(a: string, b: string): (r: string)
    ensures |b| <= |r| && r[|r| - |b|..] == b
    ensures '/' !in b && a != [] && a[|a| - 1] != '/' ==> r == a + "/" + b
  {
    if |b| > 0 && b[0] == '/' then b
    else if a == [] || a[|a| - 1] == '/' then a + b
    else a + "/" + b
  }

  /** Joining never changes the final component: `basename(join(a, b)) == basename(b)`. */
  lemma BasenameOfJoin(a: string, b: string)
    ensures Basename(Join(a, b)) == Basename(b)
  {
    if |b| > 0 && b[0] == '/' {
    } else if a == [] || a[|a| - 1] == '/' {
      LastSegmentOfAppend(a, b, '/');
    } else {
      assert a + "/" + b == (a + "/") + b;
      LastSegmentOfAppend(a + "/", b, '/');
    }
  }
}

=== FILE: polling.dfy ===
/**
 * The browser's bounded polling of the archive status (`pollUntilSuccess` and
 * `checkResponse`), run sequentially over the replies the server gives: the i-th request
 * receives `replies[i]`. Timers and deferred objects are not modelled; when the replies run
 * out, the run is still waiting on its last request.
 */
module Polling {

  /** What one GET request produced. */
  datatype Reply<R> = Success(response: R) | Failure(responseText: string)

  /** Why the promise was rejected. */
  datatype Rejection = MaxTriesExceeded | RequestFailed(responseText: string) {

    /** The rejection value handed to the failure callbacks. */
    function Message(): string {
      match this
      case MaxTriesExceeded => "Max tries exceeded."
      case RequestFailed(text) => "Request failed:\n" + text
    }
  }

  /** How the promise settled, and how many requests were issued by then. */
  datatype Outcome<R> =
    | Resolved(response: R, requests: nat)
    | Rejected(reason: Rejection, requests: nat)
    | Waiting(requests: nat)

  /** At least one request is always made, even when `maxTries` is below 1. */
  function RequestBound(maxTries: int): nat {
    if maxTries < 1 then 1 else maxTries
  }

  /** The first `n` replies were all successful responses that failed the check. */
  predicate Unready<R>(replies: seq<Reply<R>>, check: R -> bool, n: nat)
    requires n <= |replies|
  {
    forall i :: 0 <= i < n ==> replies[i].Success? && !check(replies[i].response)
  }

  /**
   * `pollUntilSuccess(url, checkSuccessFn, intervalMs, maxTries)`: `tries` starts at 1; a
   * response passing the check resolves with it; a failing one polls again while
   * `tries < maxTries` and rejects with 'Max tries exceeded.' otherwise; a failed request
   * rejects at once.
   */
  method PollUntilSuccess<R>(replies: seq<Reply<R>>, check: R -> bool, maxTries: int) returns (o: Outcome<R>)
    ensures 1 <= o.requests <= RequestBound(maxTries)
    ensures o.Waiting? <==> |replies| < o.requests
    ensures o.requests <= |replies| + 1
    ensures Unready(replies, check, o.requests - 1)
    ensures o.Resolved? ==> replies[o.requests - 1] == Success(o.response) && check(o.response)
    ensures o.Rejected? && o.reason.MaxTriesExceeded? ==>
      o.requests == RequestBound(maxTries) && Unready(replies, check, o.requests)
    ensures o.Rejected? && o.reason.RequestFailed? ==>
      replies[o.requests - 1] == Failure(o.reason.responseText)
    ensures !o.Waiting? && replies[o.requests - 1].Failure? ==>
      o == Rejected(RequestFailed(replies[o.requests - 1].responseText), o.requests)
  {
    var tries: nat := 1;
    while true
      invariant 1 <= tries <= RequestBound(maxTries)
      invariant tries <= |replies| + 1
      invariant Unready(replies, check, tries - 1)
      decreases |replies| + 1 - tries
    {
      if tries - 1 == |replies| {
        return Waiting(tries);
      }
      match replies[tries - 1]
      case Failure(text) =>
        return Rejected(RequestFailed(text), tries);
      case Success(response) =>
        if check(response) {
          return Resolved(response, tries);
        } else if tries < maxTries {
          tries := tries + 1;
        } else {
          return Rejected(MaxTriesExceeded, tries);
        }
    }
  }

  /** The status handler's JSON body. */
  datatype StatusResponse = StatusResponse(zipAvailable: bool)

  /** `checkResponse`: the `zip_available` field. */
  function CheckResponse(response: StatusResponse): (ok: bool)
    ensures ok <==> response.zipAvailable
  {
    response.zipAvailable
  }

  /** The staff flow polls every 10000 ms ... */
  const StaffPollIntervalMs: nat := 10000

  /** ... at most 100 times. */
  const StaffPollMaxTries: int := 100

  /**
   * `pollSubmissionDownload`: the staff flow's poll. It resolves only on a status that reports
   * the archive available, issues at most 100 requests, and between them the timers add up to
   * at most 990000 ms.
   */
  method PollSubmissionDownload(replies: seq<Reply<StatusResponse>>) returns (o: Outcome<StatusResponse>, waitedMs: nat)
    ensures 1 <= o.requests <= 100
    ensures o.Resolved? ==> o.response.zipAvailable
    ensures waitedMs == (o.requests - 1) * StaffPollIntervalMs && waitedMs <= 990000
    ensures o.Rejected? && o.reason.MaxTriesExceeded? ==>
      o.requests == 100 <= |replies| && forall i :: 0 <= i < 100 ==> replies[i] == Success(StatusResponse(false))
  {
    o := PollUntilSuccess(replies, CheckResponse, StaffPollMaxTries);
    waitedMs := (o.requests - 1) * StaffPollIntervalMs;
  }
}

=== FILE: storage_layout.dfy ===
/**
 * Where uploaded submission files live in blob storage, and what blob storage holds.
 * Files are content addressed: the path is built from the block's locator, the SHA-1 of
 * the file and the extension of the name the student uploaded it under.
 */
module StorageLayout {
  import opened Files
  import opened PathText

  /** The fields of a block usage locator that paths are built from. */
  datatype Locator = Locator(org: string, course: string, blockType: string, blockId: string)

  /** What a storage path holds: uploaded bytes, or an archive written by the zip task. */
  datatype Blob = Bytes(data: seq<byte>) | Zip(entries: seq<Entry>)

  /** One member of a zip archive. */
  datatype Entry = Entry(name: string, content: Blob)

  /** A stored blob with the time storage reports as its modification time. */
  datatype Stored = Stored(blob: Blob, modified: int)

  type Storage = map<string, Stored>

  /** `org/course/block_type`, the directory every path of the block starts with. */
  function BlockTypeDir(loc: Locator): string {
    loc.org + "/" + loc.course + "/" + loc.blockType
  }

  /** `org/course/block_type/block_id/<hash><ext>`: where an uploaded file is stored. */
  function StoragePath(loc: Locator, fileHash: string, originalFilename: string): (p: string)
    ensures |BlockTypeDir(loc)| < |p| && p[..|BlockTypeDir(loc)|] == BlockTypeDir(loc) && p[|BlockTypeDir(loc)|] == '/'
  {
    BlockTypeDir(loc) + "/" + loc.blockId + "/" + fileHash + Ext(originalFilename)
  }

  /**
   * A rewriting step, not a property: the storage path regrouped as the block type directory
   * followed by the rest, the shape `ZipTasks.ZipFilePathIsNoUploadPath` compares against.
   */
  lemma StoragePathAfterBlockTypeDir(loc: Locator, fileHash: string, originalFilename: string)
    ensures StoragePath(loc, fileHash, originalFilename)
         == BlockTypeDir(loc) + ("/" + loc.blockId + "/" + fileHash + Ext(originalFilename))
  {
  }

  /**
   * For hashes of one length (SHA-1 hex digests always have 40 characters) two uploads share
   * a path exactly when they have the same hash and the same extension: the rest of the
   * original name plays no part.
   */
  lemma StoragePathIdentity(loc: Locator, h1: string, f1: string, h2: string, f2: string)
    requires |h1| == |h2|
    ensures StoragePath(loc, h1, f1) == StoragePath(loc, h2, f2) <==> h1 == h2 && Ext(f1) == Ext(f2)
  {
    var p := BlockTypeDir(loc) + "/" + loc.blockId + "/";
    var e1, e2 := Ext(f1), Ext(f2);
    assert StoragePath(loc, h1, f1) == p + h1 + e1;
    assert StoragePath(loc, h2, f2) == p + h2 + e2;
    ConcatCancel(p, h1, e1, h2, e2);
  }

  /** The final component of a storage path is the hash followed by the extension. */
  lemma BasenameOfStoragePath(loc: Locator, fileHash: string, originalFilename: string)
    requires '/' !in fileHash
    ensures Basename(StoragePath(loc, fileHash, originalFilename)) == fileHash + Ext(originalFilename)
  {
    var name := fileHash + Ext(originalFilename);
    assert '/' !in name;
    assert StoragePath(loc, fileHash, originalFilename)
        == (BlockTypeDir(loc) + "/" + loc.blockId) + ['/'] + name;
    LastSegmentAfterSeparator(BlockTypeDir(loc) + "/" + loc.blockId, '/', name);
  }
}

=== FILE: submissions.dfy ===
/**
 * Submission records as the submissions service returns them, the staff table built from
 * them (`get_sorted_submissions`) and the `is_finalized_submission` test.
 * Times are abstract instants, ordered as integers.
 */
module Submissions {
  import opened Wrappers

  /** The `answer` dict of a submission, as far as this component reads it. */
  datatype AnswerField =
    | Null                 // the answer is None
    | Empty                // the answer is {}: falsy, but not None
    | Filled(sha1: string, filename: string, finalized: Option<bool>)

  datatype Submission = Submission(
    uuid: string,
    studentId: string,
    submittedAt: Option<int>,  // None when the field is unset
    createdAt: int,
    answer: AnswerField)

  /** One row of the staff table. */
  datatype Row = Row(submissionId: string, username: string, studentId: string, timestamp: int, filename: string)

  /** Reading a field of a missing answer raised instead of building the table. */
  datatype TableError = AnswerWithoutFilename

  /**
   * `is_finalized_submission`: a missing submission or a None answer is not finalized;
   * otherwise the answer's `finalized` flag decides, and an answer without one is finalized.
   */
  function IsFinalizedSubmission(data: Option<Submission>): (r: bool)
    ensures data.None? ==> !r
    ensures data.Some? && data.value.answer.Null? ==> !r
    ensures data.Some? && data.value.answer.Empty? ==> r
    ensures data.Some? && data.value.answer.Filled? ==> (r <==> data.value.answer.finalized != Some(false))
  {
    match data
    case None => false
    case Some(s) =>
      match s.answer
      case Null => false
      case Empty => true
      case Filled(_, _, finalized) => finalized.GetOr(true)
  }

  /** The table's time for a submission: `submitted_at`, or `created_at` when that is unset. */
  function Timestamp(s: Submission): (t: int)
    ensures s.submittedAt.Some? ==> t == s.submittedAt.value
    ensures s.submittedAt.None? ==> t == s.createdAt
  {
    match s.submittedAt
    case Some(t) => t
    case None => s.createdAt
  }

  function ToRow(s: Submission, usernameOf: string -> string): Row
    requires s.answer.Filled?
  {
    Row(s.uuid, usernameOf(s.studentId), s.studentId, Timestamp(s), s.answer.filename)
  }

  predicate NewestFirst(rows: seq<Row>) {
    forall i, j :: 0 <= i < j < |rows| ==> rows[i].timestamp >= rows[j].timestamp
  }

  /** A row no older than the head of a newest-first table can go in front of it. */
  lemma ConsNewestFirst(h: Row, rest: seq<Row>)
    requires NewestFirst(rest)
    requires rest == [] || rest[0].timestamp <= h.timestamp
    ensures NewestFirst([h] + rest)
  {
    var r := [h] + rest;
    forall i, j | 0 <= i < j < |r|
      ensures r[i].timestamp >= r[j].timestamp
    {
      if i == 0 {
        assert r[j] == rest[j - 1];
        assert rest[0].timestamp >= rest[j - 1].timestamp;
      } else {
        assert r[i] == rest[i - 1] && r[j] == rest[j - 1];
      }
    }
  }

  /** Places `x` before the first row that is not newer than it, so that ties keep input order. */
  function Insert(x: Row, rows: seq<Row>): (r: seq<Row>)
    requires NewestFirst(rows)
    ensures NewestFirst(r)
    ensures |r| == |rows| + 1
    ensures r[0] == x || (|rows| > 0 && r[0] == rows[0])
    ensures multiset(r) == multiset(rows) + multiset{x}
  {
    if |rows| == 0 || rows[0].timestamp <= x.timestamp then
      ConsNewestFirst(x, rows);
      [x] + rows
    else
      var rest := Insert(x, rows[1..]);
      assert rows == [rows[0]] + rows[1..];
      assert rest[0].timestamp <= rows[0].timestamp;
      ConsNewestFirst(rows[0], rest);
      [rows[0]] + rest
  }

  /** A stable sort on `timestamp`, newest first: `list.sort(key=..., reverse=True)`. */
  function SortNewestFirst(rows: seq<Row>): (r: seq<Row>)
    ensures NewestFirst(r)
    ensures multiset(r) == multiset(rows)
  {
    if |rows| == 0 then []
    else
      assert rows == [rows[0]] + rows[1..];
      Insert(rows[0], SortNewestFirst(rows[1..]))
  }

  /** The rows that carry timestamp `t`, in order. */
  function WithTimestamp(rows: seq<Row>, t: int): seq<Row> {
    if |rows| == 0 then []
    else (if rows[0].timestamp == t then [rows[0]] else []) + WithTimestamp(rows[1..], t)
  }

  lemma {:induction false} InsertKeepsTies(x: Row, rows: seq<Row>, t: int)
    requires NewestFirst(rows)
    ensures WithTimestamp(Insert(x, rows), t) == (if x.timestamp == t then [x] else []) + WithTimestamp(rows, t)
    decreases |rows|
  {
    if |rows| == 0 || rows[0].timestamp <= x.timestamp {
      assert ([x] + rows)[1..] == rows;
    } else {
      var rest := Insert(x, rows[1..]);
      var head := if rows[0].timestamp == t then [rows[0]] else [];
      assert ([rows[0]] + rest)[1..] == rest;
      assert WithTimestamp(Insert(x, rows), t) == head + WithTimestamp(rest, t);
      assert WithTimestamp(rows, t) == head + WithTimestamp(rows[1..], t);
      InsertKeepsTies(x, rows[1..], t);
      if x.timestamp == t {
        assert head == [];
      } else {
        assert WithTimestamp(rest, t) == WithTimestamp(rows[1..], t);
      }
    }
  }

  /** The sort is stable: rows with equal timestamps keep their relative input order. */
  lemma {:induction false} SortIsStable(rows: seq<Row>, t: int)
    ensures WithTimestamp(SortNewestFirst(rows), t) == WithTimestamp(rows, t)
    decreases |rows|
  {
    if |rows| > 0 {
      SortIsStable(rows[1..], t);
      InsertKeepsTies(rows[0], SortNewestFirst(rows[1..]), t);
    }
  }

  /**
   * `get_sorted_submissions`: one row per submission, newest first. Reading the file name of a
   * None or empty answer raises, so any such submission makes the whole table fail.
   */
  function SortedSubmissions(subs: seq<Submission>, usernameOf: string -> string): (r: Result<seq<Row>, TableError>)
    ensures r.Ok? <==> forall i :: 0 <= i < |subs| ==> subs[i].answer.Filled?
    ensures r.Ok? ==> |r.value| == |subs| && NewestFirst(r.value)
  {
    if exists i :: 0 <= i < |subs| && !subs[i].answer.Filled? then Err(AnswerWithoutFilename)
    else
      var rows := seq(|subs|, i requires 0 <= i < |subs| => ToRow(subs[i], usernameOf));
      var sorted := SortNewestFirst(rows);
      assert |sorted| == |multiset(sorted)| == |multiset(rows)| == |rows|;
      Ok(sorted)
  }

  /**
   * The first row of the table carries the newest timestamp of all submissions, and the table
   * holds exactly one row per submission.
   */
  lemma SortedSubmissionsNewest(subs: seq<Submission>, usernameOf: string -> string)
    requires forall i :: 0 <= i < |subs| ==> subs[i].answer.Filled?
    ensures var r := SortedSubmissions(subs, usernameOf);
      && r.Ok?
      && multiset(r.value) == multiset(seq(|subs|, i requires 0 <= i < |subs| => ToRow(subs[i], usernameOf)))
      && (|subs| > 0 ==>
            && (forall i :: 0 <= i < |subs| ==> Timestamp(subs[i]) <= r.value[0].timestamp)
            && (exists i :: 0 <= i < |subs| && Timestamp(subs[i]) == r.value[0].timestamp))
  {
    var rows := seq(|subs|, i requires 0 <= i < |subs| => ToRow(subs[i], usernameOf));
    var sorted := SortNewestFirst(rows);
    assert SortedSubmissions(subs, usernameOf) == Ok(sorted);
    if |subs| > 0 {
      forall i | 0 <= i < |subs|
        ensures Timestamp(subs[i]) <= sorted[0].timestamp
      {
        assert rows[i] in multiset(sorted);
        var j :| 0 <= j < |sorted| && sorted[j] == rows[i];
      }
      assert sorted[0] in multiset(rows);
      var i :| 0 <= i < |rows| && rows[i] == sorted[0];
      assert Timestamp(subs[i]) == sorted[0].timestamp;
    }
  }
}

=== FILE: upload_limit.dfy ===
/**
 * The upload size guard on both sides of the wire: the server's `file_size_over_limit`
 * and the browser's check in the file-upload `add` callback, which compare the file size
 * with the same configured limit using different operators.
 */
module UploadLimit {
  import opened Wrappers
  import opened Files

  /** `STUDENT_FILEUPLOAD_MAX_SIZE` on the block: 4 * 1000 * 1000 bytes. */
  const DefaultMaxSize: int := 4 * 1000 * 1000

  /** `student_upload_max_size`: the deployment setting when it is present, the block's default otherwise. */
  function StudentUploadMaxSize(setting: Option<int>): (limit: int)
    ensures setting.None? ==> limit == 4000000
    ensures setting.Some? ==> limit == setting.value
  {
    setting.GetOr(DefaultMaxSize)
  }

  /**
   * `file_size_over_limit`: seeks to the end, so the size is the whole file whatever the
   * position was, and the file is left positioned at its end.
   */
  function FileSizeOverLimit(f: File, setting: Option<int>): (res: (bool, File))
    ensures res.0 <==> |f.contents| > StudentUploadMaxSize(setting)
    ensures res.1.contents == f.contents && Remaining(res.1) == []
  {
    var atEnd := SeekEnd(f);
    (Tell(atEnd) > StudentUploadMaxSize(setting), atEnd)
  }

  /**
   * The browser refuses to send a file whose size is at least `max_file_size`: every size the
   * server's strict check refuses, and the limit itself.
   */
  predicate ClientRefuses(size: nat, maxFileSize: int)
    ensures size > maxFileSize ==> ClientRefuses(size, maxFileSize)
    ensures ClientRefuses(size, maxFileSize) && size != maxFileSize ==> size > maxFileSize
  {
    size >= maxFileSize
  }

  /**
   * The browser and the server disagree on exactly one size, the limit itself: such a file is
   * refused by the browser although the server would accept it.
   */
  lemma ClientServerDisagreement(f: File, setting: Option<int>)
    ensures ClientRefuses(|f.contents|, StudentUploadMaxSize(setting)) != FileSizeOverLimit(f, setting).0
        <==> |f.contents| == StudentUploadMaxSize(setting)
    ensures |f.contents| == StudentUploadMaxSize(setting) ==>
        ClientRefuses(|f.contents|, StudentUploadMaxSize(setting)) && !FileSizeOverLimit(f, setting).0
    ensures !ClientRefuses(|f.contents|, StudentUploadMaxSize(setting)) ==> !FileSizeOverLimit(f, setting).0
  {
  }
}

=== FILE: wrappers.dfy ===
/** Failure-carrying values shared by the modules of this model. */
module Wrappers {

  /** A value that may be absent; also models Python's `None` and an absent setting. */
  datatype Option<+T> = None | Some(value: T) {

    /** The wrapped value, or `default` when there is none. */
    function GetOr(default: T): T {
      match this
      case Some(v) => v
      case None => default
    }
  }

  /** Either a value or the error that an operation raised instead. */
  datatype Result<+T, +E> = Ok(value: T) | Err(error: E)
}

=== FILE: zip_tasks.dfy ===
/**
 * The background task that collects every student's latest uploaded file into one archive
 * for a staff member, and the names that archive is stored under.
 */
module ZipTasks {
  import opened Wrappers
  import opened PathText
  import opened StorageLayout
  import opened Submissions

  /** `get_zip_file_dir`: `org/course/<block_type>_zipped`. */
  function ZipFileDir(loc: Locator): (d: string)
    ensures |BlockTypeDir(loc)| < |d| && d[..|BlockTypeDir(loc)|] == BlockTypeDir(loc)
    ensures d[|d| - 1] != '/'
  {
    BlockTypeDir(loc) + "_zipped"
  }

  /** `get_zip_file_name`: `<username>_submissions_<md5 hex of block id>_<course id>.zip`. */
  function ZipFileName(username: string, courseId: string, blockId: string, md5hex: string -> string): (n: string)
    ensures |username| + 4 < |n| && n[..|username|] == username
    ensures n[|n| - 4..] == ".zip"
  {
    username + "_submissions_" + md5hex(blockId) + "_" + courseId + ".zip"
  }

  /** An archive name holds a slash exactly when the user name, the digest or the course id does. */
  lemma ZipFileNameSlash(username: string, courseId: string, blockId: string, md5hex: string -> string)
    ensures '/' in ZipFileName(username, courseId, blockId, md5hex)
        <==> '/' in username || '/' in md5hex(blockId) || '/' in courseId
  {
    var n := ZipFileName(username, courseId, blockId, md5hex);
    assert n == username + "_submissions_" + md5hex(blockId) + "_" + courseId + ".zip";
  }

  /**
   * For one staff member and course, two blocks share an archive name exactly when their
   * block ids have the same MD5 digest.
   */
  lemma ZipFileNamePerBlock(username: string, courseId: string, b1: string, b2: string, md5hex: string -> string)
    requires |md5hex(b1)| == |md5hex(b2)|
    ensures ZipFileName(username, courseId, b1, md5hex) == ZipFileName(username, courseId, b2, md5hex)
        <==> md5hex(b1) == md5hex(b2)
  {
    var head, tail := username + "_submissions_", "_" + courseId + ".zip";
    assert ZipFileName(username, courseId, b1, md5hex) == head + md5hex(b1) + tail;
    assert ZipFileName(username, courseId, b2, md5hex) == head + md5hex(b2) + tail;
    ConcatCancel(head, md5hex(b1), tail, md5hex(b2), tail);
  }

  /** `get_zip_file_path`: the archive directory joined with the archive name. */
  function ZipFilePath(username: string, courseId: string, blockId: string, loc: Locator, md5hex: string -> string): (p: string)
    ensures var name := ZipFileName(username, courseId, blockId, md5hex); |name| <= |p| && p[|p| - |name|..] == name
  {
    Join(ZipFileDir(loc), ZipFileName(username, courseId, blockId, md5hex))
  }

  /**
   * The archive path is the directory, a slash and the name, except when the user name starts
   * with a slash: then the join discards the directory.
   */
  lemma ZipFilePathShape(username: string, courseId: string, blockId: string, loc: Locator, md5hex: string -> string)
    ensures ZipFilePath(username, courseId, blockId, loc, md5hex)
         == ZipFileDir(loc) + "/" + ZipFileName(username, courseId, blockId, md5hex)
        <==> username == [] || username[0] != '/'
    ensures username != [] && username[0] == '/' ==>
      ZipFilePath(username, courseId, blockId, loc, md5hex) == ZipFileName(username, courseId, blockId, md5hex)
  {
    var dir, name := ZipFileDir(loc), ZipFileName(username, courseId, blockId, md5hex);
    assert dir[|dir| - 1] == 'd';
    if username == [] {
      assert name[0] == '_';
    } else {
      assert name[0] == username[0];
    }
    if username != [] && username[0] == '/' {
      assert |dir + "/" + name| > |name|;
    }
  }

  /** The download's attachment name is the final component of the archive path, when no part of the name holds a slash. */
  lemma BasenameOfZipFilePath(username: string, courseId: string, blockId: string, loc: Locator, md5hex: string -> string)
    requires '/' !in ZipFileName(username, courseId, blockId, md5hex)
    ensures Basename(ZipFilePath(username, courseId, blockId, loc, md5hex)) == ZipFileName(username, courseId, blockId, md5hex)
  {
    var name := ZipFileName(username, courseId, blockId, md5hex);
    BasenameOfJoin(ZipFileDir(loc), name);
    LastSegmentWithoutSeparator(name, '/');
  }

  /** Past the block type directory, an archive path continues with `_zipped/`. */
  lemma ZipFilePathAfterBlockTypeDir(username: string, courseId: string, blockId: string, loc: Locator, md5hex: string -> string)
    requires username == [] || username[0] != '/'
    ensures ZipFilePath(username, courseId, blockId, loc, md5hex)
         == BlockTypeDir(loc) + ("_zipped/" + ZipFileName(username, courseId, blockId, md5hex))
  {
    ZipFilePathShape(username, courseId, blockId, loc, md5hex);
  }

  /** An archive path never coincides with the storage path of an uploaded file of the same block type. */
  lemma ZipFilePathIsNoUploadPath(username: string, courseId: string, blockId: string, loc: Locator,
                                  md5hex: string -> string, fileHash: string, filename: string)
    requires username == [] || username[0] != '/'
    ensures ZipFilePath(username, courseId, blockId, loc, md5hex) != StoragePath(loc, fileHash, filename)
  {
    ZipFilePathAfterBlockTypeDir(username, courseId, blockId, loc, md5hex);
    StoragePathAfterBlockTypeDir(loc, fileHash, filename);
    DifferAfterPrefix(BlockTypeDir(loc), "_zipped/" + ZipFileName(username, courseId, blockId, md5hex),
                      "/" + loc.blockId + "/" + fileHash + Ext(filename));
  }

  /** A (student username, storage path) pair the archive is built from. */
  datatype Kept = Kept(username: string, path: string)

  /** The pair one submission contributes: the student's user name and where the upload is stored. */
  function KeptOf(s: Submission, loc: Locator, usernameOf: string -> string): (k: Kept)
    requires s.answer.Filled?
    ensures k.username == usernameOf(s.studentId)
  {
    Kept(usernameOf(s.studentId), StoragePath(loc, s.answer.sha1, s.answer.filename))
  }

  /**
   * `_get_student_submissions`: one pair per submission whose answer is truthy, in input
   * order; None and empty answers are skipped.
   */
  function StudentSubmissions(subs: seq<Submission>, loc: Locator, usernameOf: string -> string): (r: seq<Kept>)
    ensures |r| <= |subs|
  {
    if |subs| == 0 then []
    else
      (if subs[0].answer.Filled? then [KeptOf(subs[0], loc, usernameOf)] else [])
      + StudentSubmissions(subs[1..], loc, usernameOf)
  }

  /** `k` is the pair submission `s` yields. */
  predicate YieldedBy(k: Kept, s: Submission, loc: Locator, usernameOf: string -> string) {
    s.answer.Filled? && k == KeptOf(s, loc, usernameOf)
  }

  /** Every kept pair comes from a submission with a truthy answer. */
  lemma {:induction false} StudentSubmissionsSound(subs: seq<Submission>, loc: Locator, usernameOf: string -> string, k: Kept)
    requires k in StudentSubmissions(subs, loc, usernameOf)
    ensures exists i :: 0 <= i < |subs| && YieldedBy(k, subs[i], loc, usernameOf)
    decreases |subs|
  {
    assert |subs| > 0;
    var head := if subs[0].answer.Filled? then [KeptOf(subs[0], loc, usernameOf)] else [];
    var rest := StudentSubmissions(subs[1..], loc, usernameOf);
    assert StudentSubmissions(subs, loc, usernameOf) == head + rest;
    if k in head {
      assert YieldedBy(k, subs[0], loc, usernameOf);
    } else {
      assert k in rest;
      StudentSubmissionsSound(subs[1..], loc, usernameOf, k);
      var i :| 0 <= i < |subs[1..]| && YieldedBy(k, subs[1..][i], loc, usernameOf);
      assert YieldedBy(k, subs[i + 1], loc, usernameOf) by {
        assert subs[1..][i] == subs[i + 1];
      }
    }
  }

  /** Every submission with a truthy answer yields its pair. */
  lemma {:induction false} StudentSubmissionsComplete(subs: seq<Submission>, loc: Locator, usernameOf: string -> string, i: nat)
    requires i < |subs| && subs[i].answer.Filled?
    ensures KeptOf(subs[i], loc, usernameOf) in StudentSubmissions(subs, loc, usernameOf)
    decreases i
  {
    if i > 0 {
      assert subs[1..][i - 1] == subs[i];
      StudentSubmissionsComplete(subs[1..], loc, usernameOf, i - 1);
    }
  }

  /**
   * No pair is kept exactly when no answer is truthy, and with every answer truthy there is
   * one pair per submission.
   */
  lemma {:induction false} StudentSubmissionsCount(subs: seq<Submission>, loc: Locator, usernameOf: string -> string)
    ensures StudentSubmissions(subs, loc, usernameOf) == [] <==> forall i :: 0 <= i < |subs| ==> !subs[i].answer.Filled?
    ensures (forall i :: 0 <= i < |subs| ==> subs[i].answer.Filled?) ==> |StudentSubmissions(subs, loc, usernameOf)| == |subs|
    decreases |subs|
  {
    if |subs| > 0 {
      StudentSubmissionsCount(subs[1..], loc, usernameOf);
      assert forall i :: 1 <= i < |subs| ==> subs[i] == subs[1..][i - 1];
    }
  }

  /** Filtering keeps input order: it distributes over concatenation. */
  lemma {:induction false} StudentSubmissionsAppend(a: seq<Submission>, b: seq<Submission>, loc: Locator, usernameOf: string -> string)
    ensures StudentSubmissions(a + b, loc, usernameOf)
         == StudentSubmissions(a, loc, usernameOf) + StudentSubmissions(b, loc, usernameOf)
    decreases |a|
  {
    if |a| > 0 {
      var head := if a[0].answer.Filled? then [KeptOf(a[0], loc, usernameOf)] else [];
      var x, y := StudentSubmissions(a[1..], loc, usernameOf), StudentSubmissions(b, loc, usernameOf);
      assert (a + b)[0] == a[0];
      assert (a + b)[1..] == a[1..] + b;
      StudentSubmissionsAppend(a[1..], b, loc, usernameOf);
      assert StudentSubmissions(a + b, loc, usernameOf) == head + (x + y);
      assert head + (x + y) == (head + x) + y;
    } else {
      assert a + b == b;
    }
  }

  /** `<username>_<basename of the storage path>`: the name of a student's file inside the archive. */
  function EntryName(k: Kept): (n: string)
    ensures |k.username| < |n| && n[..|k.username| + 1] == k.username + "_"
    ensures '/' !in n[|k.username| + 1..]
  {
    k.username + "_" + Basename(k.path)
  }

  /** A student's file appears in the archive as `<username>_<sha1><ext>`. */
  lemma EntryNameOfSubmission(s: Submission, loc: Locator, usernameOf: string -> string)
    requires s.answer.Filled? && '/' !in s.answer.sha1
    ensures EntryName(KeptOf(s, loc, usernameOf))
         == usernameOf(s.studentId) + "_" + s.answer.sha1 + Ext(s.answer.filename)
  {
    BasenameOfStoragePath(loc, s.answer.sha1, s.answer.filename);
  }

  /**
   * The archive and `is_finalized_submission` test the answer differently: a None answer is
   * neither archived nor finalized, but an empty answer counts as finalized and is still
   * left out of the archive.
   */
  lemma ArchivedVersusFinalized(s: Submission, loc: Locator, usernameOf: string -> string)
    ensures StudentSubmissions([s], loc, usernameOf) != [] <==> s.answer.Filled?
    ensures s.answer.Null? ==> !IsFinalizedSubmission(Some(s))
    ensures s.answer.Empty? ==> IsFinalizedSubmission(Some(s)) && StudentSubmissions([s], loc, usernameOf) == []
  {
    assert [s][1..] == [];
  }

  /** Opening a storage path that holds nothing raised. */
  datatype MissingFile = MissingFile(path: string)

  /** The index of the first pair whose file is not stored, or the length when all are. */
  function FirstMissing(kept: seq<Kept>, storage: Storage): (i: nat)
    ensures i <= |kept|
    ensures forall j :: 0 <= j < i ==> kept[j].path in storage
    ensures i < |kept| ==> kept[i].path !in storage
  {
    if |kept| == 0 || kept[0].path !in storage then 0 else 1 + FirstMissing(kept[1..], storage)
  }

  /** The archive entry for a stored pair. */
  function EntryOf(k: Kept, storage: Storage): Entry
    requires k.path in storage
  {
    Entry(EntryName(k), storage[k.path].blob)
  }

  /** The entries for the pairs after the first, preceded by the first pair's entry, are the entries for all pairs. */
  lemma ConsEntries(kept: seq<Kept>, storage: Storage, rest: seq<Entry>)
    requires |kept| > 0 && kept[0].path in storage
    requires |rest| == |kept| - 1
    requires forall i :: 0 <= i < |rest| ==> kept[1..][i].path in storage && rest[i] == EntryOf(kept[1..][i], storage)
    ensures forall i :: 0 <= i < |kept| ==> kept[i].path in storage && ([EntryOf(kept[0], storage)] + rest)[i] == EntryOf(kept[i], storage)
  {
    var r := [EntryOf(kept[0], storage)] + rest;
    forall i | 0 <= i < |kept|
      ensures kept[i].path in storage && r[i] == EntryOf(kept[i], storage)
    {
      if i > 0 {
        assert kept[i] == kept[1..][i - 1];
        assert r[i] == rest[i - 1];
      }
    }
  }

  /**
   * The loop of `_compress_student_submissions`: one archive entry per pair, named after the
   * student and holding the stored file; the first pair whose file is missing ends it.
   */
  function Compress(kept: seq<Kept>, storage: Storage): (r: Result<seq<Entry>, MissingFile>)
    ensures r.Ok? <==> FirstMissing(kept, storage) == |kept|
    ensures r.Err? ==> r.error == MissingFile(kept[FirstMissing(kept, storage)].path)
    ensures r.Ok? ==> |r.value| == |kept| && forall i :: 0 <= i < |kept| ==> r.value[i] == EntryOf(kept[i], storage)
  {
    if |kept| == 0 then Ok([])
    else if kept[0].path !in storage then Err(MissingFile(kept[0].path))
    else
      match Compress(kept[1..], storage)
      case Err(e) => Err(e)
      case Ok(rest) =>
        ConsEntries(kept, storage, rest);
        Ok([EntryOf(kept[0], storage)] + rest)
  }

  /** `default_storage.delete(p)` when `p` exists; storage is left as it was otherwise. */
  function Delete(storage: Storage, p: string): (r: Storage)
    ensures p !in r
    ensures forall q :: q in r <==> q in storage && q != p
    ensures forall q :: q in r ==> r[q] == storage[q]
  {
    if p in storage then storage - {p} else storage
  }

  /** How a run of the task left storage, and whether it ran to the end. */
  datatype TaskRun = TaskRun(storage: Storage, completed: bool)

  /**
   * `zip_student_submissions` run at time `now`: deletes an existing archive first; with no
   * truthy answers it writes nothing; otherwise it saves one entry per kept pair, unless a
   * stored file is missing, in which case the task fails after the deletion.
   */
  function ZipStudentSubmissions(username: string, courseId: string, blockId: string, loc: Locator,
                                 md5hex: string -> string, usernameOf: string -> string,
                                 subs: seq<Submission>, storage: Storage, now: int): (run: TaskRun)
    ensures var p := ZipFilePath(username, courseId, blockId, loc, md5hex);
      && (forall q :: q != p ==> (q in run.storage <==> q in storage))
      && (forall q :: q != p && q in storage ==> run.storage[q] == storage[q])
      && (p in run.storage ==> run.completed && run.storage[p].modified == now && run.storage[p].blob.Zip?)
  {
    var p := ZipFilePath(username, courseId, blockId, loc, md5hex);
    var cleared := Delete(storage, p);
    var kept := StudentSubmissions(subs, loc, usernameOf);
    if kept == [] then TaskRun(cleared, true)
    else
      match Compress(kept, cleared)
      case Err(_) => TaskRun(cleared, false)
      case Ok(entries) => TaskRun(cleared[p := Stored(Zip(entries), now)], true)
  }

  /**
   * What a run writes: nothing when no answer is truthy; otherwise it completes exactly when
   * every kept file is stored (and is not the archive itself), and the archive then holds one
   * entry per kept pair, in order, named after the student and holding the stored file.
   */
  lemma ZipTaskArchive(username: string, courseId: string, blockId: string, loc: Locator,
                       md5hex: string -> string, usernameOf: string -> string,
                       subs: seq<Submission>, storage: Storage, now: int)
    ensures var run := ZipStudentSubmissions(username, courseId, blockId, loc, md5hex, usernameOf, subs, storage, now);
      var p := ZipFilePath(username, courseId, blockId, loc, md5hex);
      var kept := StudentSubmissions(subs, loc, usernameOf);
      && (kept == [] ==> run.completed && p !in run.storage)
      && (run.completed <==> forall i :: 0 <= i < |kept| ==> kept[i].path in storage && kept[i].path != p)
      && (run.completed && kept != [] ==>
            && p in run.storage
            && |run.storage[p].blob.entries| == |kept|
            && forall i :: 0 <= i < |kept| ==>
                 run.storage[p].blob.entries[i] == Entry(EntryName(kept[i]), storage[kept[i].path].blob))
  {
    var p := ZipFilePath(username, courseId, blockId, loc, md5hex);
    var cleared := Delete(storage, p);
    var kept := StudentSubmissions(subs, loc, usernameOf);
    if kept != [] {
      var c := Compress(kept, cleared);
      if c.Ok? {
        forall i | 0 <= i < |kept|
          ensures c.value[i] == Entry(EntryName(kept[i]), storage[kept[i].path].blob)
        {
          assert kept[i].path in cleared;
        }
      }
    }
  }
}
